=== FILE: README.md ===
# Pi-hole client: a Dafny model of the negotiation and session logic

This project models the decision logic of the two JavaScript clients of the
Pi-hole control API in the KDE Plasma widget:

- `org.kde.plasma.pihole/contents/code/pihole.js`, the main client. Its
  negotiator (`getStatus`, `disable`, `enable`) talks to two API generations
  of the same server: the legacy query-parameter API ("v5",
  `/admin/api.php`) and the session-based REST API ("v6", `/api/auth` and
  `/api/dns/blocking`). It tries the preferred generation first and falls back
  to the other one. It learns a preference (`preferredApiVersion`) and caches a
  v6 session (`sessionId`, `sessionExpiry`).
- `org.kde.plasma.pihole/pihole-widget/contents/code/pihole.js`, a smaller
  v6-only copy. It has a fixed five-minute session lifetime, a presence check
  without trimming, enable/disable results that are only a flag, and its own
  `formatTime`.

The model is functional. The globals become explicit state records that every
operation takes and returns:

- `Negotiator.State` holds the preference and the session.
- `RestApi.Session` and `Widget.Session` hold the session of each client.

Each HTTP request is a `Protocol.Request` value. The transport is a function
`Network` from requests to exchanges: a timeout, a network error, or a
completed response with its status code, raw text and parsed body. Every
operation returns the requests it issued, in order. That makes "no request was
sent", "v6 was tried first" and "no re-authentication" statable.

`Date.now()` is a parameter `now`, read once per top-level call, as
`authenticateV6` reads it before it sends its request.

Parsed JSON is the generic `JsValue.Json`. It comes with JavaScript
truthiness, with member access that throws on `null` (the adapters' `try`
catches it like a parse error), and with `||` defaulting.

The modules follow the source:

| module | models |
|---|---|
| `Protocol` | requests, exchanges and payloads |
| `LegacyApi` | the `tryV5*` response classifiers |
| `RestApi` | `authenticateV6` and the `tryV6*` adapters |
| `Negotiator` | `getStatus`, `disable` and `enable` |
| `Display` | the main `formatTime` |
| `Widget` | the whole second client |

These modules support the others:

| module | provides |
|---|---|
| `JsValue` | the JSON values and their JavaScript semantics |
| `JsString` | `String.prototype.trim` with the ECMAScript white-space set |
| `Decimal` | how numbers print in string concatenation |
| `DurationText` | a reader for the texts `formatTime` produces |

`DurationText` lets the model state what a formatted time says, as a read-back
property. `Scenarios` works end-to-end situations of the main client out on
the model.

The preference logic is narrower than "remember whatever worked last":

- Only `getStatus` writes the preference, and only in its v5-first branch. A
  v6-first call that falls back to v5 returns the v5 result and keeps "v6"
  (`Negotiator.V6PreferenceIsSticky`).
- `enable` and `disable` never write it. On a server upgraded to v6, `enable`
  succeeds through the v6 fallback and the preference stays unlearned
  (`Scenarios.EnableOnUpgradedServer`).
- When both generations fail in v5-first order, `getStatus` reports the v5
  error (the first-tried one) behind a guidance text, while `disable` and
  `enable` report the v6 error (the second-tried one) behind "Failed to
  disable: " / "Failed to enable: ". In v6-first order all three return the
  v5 fallback result unchanged, with no guidance text and no prefix.

## Model

| member | source | states |
|---|---|---|
| `Negotiator.GetStatus` | org.kde.plasma.pihole/contents/code/pihole.js:15-65 | A blank host fails first, then a blank key, both with no request. Otherwise v5 is tried first exactly when "v6" is not learned. v6-first returns the v6 success or else the v5 fallback result unchanged, and keeps "v6". v5-first learns "v5" on v5 success. After a v5 failure it learns "v6" on v6 success. When both fail it reports the guidance text followed by the v5 error and keeps the preference. |
| `Negotiator.WhitespaceInputsRejected` | org.kde.plasma.pihole/contents/code/pihole.js:19-26 | getStatus rejects a null or all-white-space host with "Pi-hole IP address is empty", and then such a key with "App Password/API Key is empty". It sends no request exactly in these cases. |
| `JsString.TrimIsEmptyIffBlank` | org.kde.plasma.pihole/contents/code/pihole.js:19-26 | `trim()` yields "" exactly for strings made only of white space, which is what the `trim() === ""` checks accept. |
| `Negotiator.PreferenceFollowsSuccess` | org.kde.plasma.pihole/contents/code/pihole.js:41-63 | getStatus only changes the preference after a success, and only to the generation whose request was sent last. |
| `Negotiator.LearnedV6IsTriedFirst` | org.kde.plasma.pihole/contents/code/pihole.js:29-64 | After a v5 failure answered by a v6 success, "v6" is learned, and the next getStatus, disable and enable each send a v6 request first. |
| `Negotiator.V6PreferenceIsSticky` | org.kde.plasma.pihole/contents/code/pihole.js:29-38 | Under "v6", a v6 failure followed by a v5 success returns the v5 result and leaves the preference at "v6". |
| `Negotiator.NoAuthWhileSessionUsable` | org.kde.plasma.pihole/contents/code/pihole.js:465-470 | While the cached session is usable, no getStatus, disable or enable sends a request to /api/auth, whichever generation comes first. |
| `Negotiator.FreshClientTriesLegacyThenAuthenticates` | org.kde.plasma.pihole/contents/code/pihole.js:6 | From the globals as loaded (no preference, no session), getStatus with valid inputs, disable and enable each send their v5 request first, and a v6 fallback they reach starts with an auth request. |
| `Negotiator.Disable` | org.kde.plasma.pihole/contents/code/pihole.js:67-99 | disable never changes the preference and validates nothing. v6-first returns the v6 success or else the v5 result unchanged. v5-first returns the v5 success, or else the v6 success, or else "Failed to disable: " followed by the v6 error. The session is the one v6 left, unless v5 succeeded first. The requests are the first-tried generation's, followed by the other's only when the first failed. |
| `Negotiator.Enable` | org.kde.plasma.pihole/contents/code/pihole.js:101-133 | As disable, with "Failed to enable: " and the enable requests: the other generation is asked only after the first-tried one failed. |
| `LegacyApi.StatusOutcome` | org.kde.plasma.pihole/contents/code/pihole.js:137-188 | A v5 status call succeeds exactly on a 200 whose parsed body has a truthy `status`, and hands that body on. Each failure gets its own error. A 200 without `status` gives "No status field in response". An unparseable 200 body gives "Failed to parse JSON: " followed by the parser's message, and a `null` body gives the same prefix followed by the member-read error. Status 0 gives the unreachable-host message naming the host. 401 gives the credential message, and any other code gives "HTTP <code>". A timeout and a network error each have their own message. |
| `LegacyApi.HttpError` | org.kde.plasma.pihole/contents/code/pihole.js:166 | The "HTTP <code>" message reads back as exactly the status code. |
| `LegacyApi.AckOutcome` | org.kde.plasma.pihole/contents/code/pihole.js:190-227 | A v5 disable or enable succeeds exactly on a 200 with a parseable body. An unparseable 200 gives "Failed to parse response" and every other code "HTTP <code>". Timeout and network error have their own messages. |
| `RestApi.AuthReply` | org.kde.plasma.pihole/contents/code/pihole.js:474-517 | Authentication succeeds exactly on a 200 whose body has a truthy `session.sid`. It then stores that sid with expiry `now + 1000 * (validity \|\| 300)`, or NaN when the validity is not a number. A 200 with a parsed non-null body and no sid fails with "No session ID in v6 auth response" and clears the id, keeping the expiry. Every other failure leaves the session alone, each with its own message: "Failed to parse v6 auth response" for an unparseable or null body, "Cannot reach v6 auth endpoint" for 0, the wrong-password message for 401, "v6 auth HTTP <code>" for other codes, "v6 auth timeout" and "v6 auth network error". |
| `RestApi.Authenticate` | org.kde.plasma.pihole/contents/code/pihole.js:463-527 | A usable cached session answers `{sid}` with no request. Otherwise exactly one auth request is sent, and its reply decides the result and the session as `AuthReply` describes. A success always leaves a truthy sid, and a failure never moves the expiry. |
| `RestApi.SessionReusedWithinValidity` | org.kde.plasma.pihole/contents/code/pihole.js:465-490 | A session granted at `now` for `validity` seconds serves every call before `now + 1000 * validity` with no further auth request. |
| `RestApi.ExpiredSessionReauthenticates` | org.kde.plasma.pihole/contents/code/pihole.js:465-470 | Once the stored expiry is not after `now`, the next v6 call starts with an auth request. |
| `RestApi.AuthFailurePassesThrough` | org.kde.plasma.pihole/contents/code/pihole.js:273-278 | A failed authentication is returned unchanged by the v6 status, disable and enable calls (also lines 340-345 and 405-410), and nothing is sent after the auth request. |
| `RestApi.Normalise` | org.kde.plasma.pihole/contents/code/pihole.js:295-305 | Blocking is on exactly when `blocking` is the string "enabled" or boolean true. The status text agrees with it. A truthy timer is kept, and a missing or falsy one becomes 0. |
| `RestApi.StatusReply` | org.kde.plasma.pihole/contents/code/pihole.js:286-327 | The v6 status read succeeds exactly on a 200 with a parsed non-null body, and then yields the normalised status. |
| `RestApi.SetReply` | org.kde.plasma.pihole/contents/code/pihole.js:362-390 | The v6 blocking POST succeeds exactly on a 200 with a parseable body. A non-200 reports "v6 HTTP <code>: " followed by the response text. An unparseable 200 body gives "Failed to parse v6 response", a timeout "v6 timeout", and a network error "v6 network error". |
| `RestApi.Status` | org.kde.plasma.pihole/contents/code/pihole.js:273-337 | tryV6Status authenticates. An auth failure is returned unchanged. After a granted session it sends one status read with the session's sid, and its outcome is that read's reply as `StatusReply` classifies it, always in the converted shape on success. |
| `RestApi.SetBlocking` | org.kde.plasma.pihole/contents/code/pihole.js:339-402 | The v6 disable and enable calls authenticate. An auth failure is returned unchanged. After a granted session one POST is sent with the session's sid and the given payload, and the outcome is that POST's reply as `SetReply` classifies it. |
| `RestApi.DisablePayload` | org.kde.plasma.pihole/contents/code/pihole.js:352-355 | The disable body has blocking off. It carries a timer exactly when the seconds are positive, and the timer is those seconds. |
| `RestApi.Disable` | org.kde.plasma.pihole/contents/code/pihole.js:339-402 | Every blocking POST tryV6Disable sends carries the disable body for its seconds. |
| `RestApi.Enable` | org.kde.plasma.pihole/contents/code/pihole.js:404-461 | Every blocking POST tryV6Enable sends carries `{blocking: true}` and no timer. |
| `Display.Clock` | org.kde.plasma.pihole/contents/code/pihole.js:534-536 | Hours, minutes below 60 and seconds below 60 that add back up to the input. There are hours exactly from 3600 seconds up. |
| `Display.FormatTime` | org.kde.plasma.pihole/contents/code/pihole.js:531-545 | No time left gives "Disabled". From 3600 seconds up the text is "<h>h <m>m" with h > 0 and m < 60. From 60 up to an hour it is "<m>m <s>s" with 0 < m < 60 and s < 60. Below a minute it is "<s>s" of the seconds themselves. |
| `Display.FormatTimeReadsBack` | org.kde.plasma.pihole/contents/code/pihole.js:531-545 | Reading the formatted text back gives the seconds it was made from. From one hour up, the seconds within the last minute are dropped ("Hh Mm"). "Disabled" reads as 0. |
| `Scenarios.EnableOnUpgradedServer` | org.kde.plasma.pihole/contents/code/pihole.js:101-133 | Take a server where v5 answers 401, /api/auth grants a session and the POST answers 200. enable succeeds through the v6 fallback, stores the session and sends exactly the three requests, yet the preference stays unlearned. |
| `Scenarios.StatusTwiceOnUpgradedServer` | org.kde.plasma.pihole/contents/code/pihole.js:41-63 | On such a server, a first getStatus learns "v6". A second one within the validity sends only the status read and returns the same result. |
| `Scenarios.FirstStatusLearnsV6` | org.kde.plasma.pihole/contents/code/pihole.js:47-54 | The first getStatus against an upgraded server returns the converted status and leaves "v6" learned with the granted session. |
| `Scenarios.V6StatusOnUpgradedServer` | org.kde.plasma.pihole/contents/code/pihole.js:273-337 | tryV6Status against a server granting a session and reporting blocking on returns `{status: "enabled", blocking: true, timer: 0}`. |
| `Scenarios.StatusOnUnreachableHost` | org.kde.plasma.pihole/contents/code/pihole.js:55-60 | In v5-first order (no "v6" learned) and with no usable session, when both generations are unreachable (status 0), getStatus reports the guidance text followed by the v5 unreachable-host message, and the state is unchanged. |
| `Scenarios.ExampleAuthBodyGrants` | org.kde.plasma.pihole/contents/code/pihole.js:485-490 | The body `{"session":{"sid":"abc","validity":300}}` grants sid "abc" for 300 seconds. |
| `Scenarios.NormalisationExamples` | org.kde.plasma.pihole/contents/code/pihole.js:295-305 | `{"blocking":"enabled","timer":45}` becomes enabled with timer 45. `{"blocking":false}` becomes disabled with timer 0. |
| `Widget.FreshWidgetAuthenticates` | org.kde.plasma.pihole/pihole-widget/contents/code/pihole.js:18-19 | With the globals as loaded (no sid, expiry 0), the first authenticate sends exactly one auth request, whatever the clock says. |
| `Widget.AuthReply` | org.kde.plasma.pihole/pihole-widget/contents/code/pihole.js:42-64 | The widget's auth succeeds exactly on a 200 carrying a sid. It stores the sid with expiry `now + 300000` whatever validity is stated. Failures are "No session in response", "Invalid response", "Invalid App Password", "Authentication failed", "Connection timeout" and "Network error". No failure touches the session. |
| `Widget.Authenticate` | org.kde.plasma.pihole/pihole-widget/contents/code/pihole.js:30-66 | A usable cached session answers its sid with no request. Otherwise exactly one auth request is sent, and its reply decides the grant and the session as `Widget.AuthReply` describes. A granted sid is the stored one and is usable at `now`, and a refusal leaves the session unchanged. |
| `Widget.SessionReusedWithinLifetime` | org.kde.plasma.pihole/pihole-widget/contents/code/pihole.js:21-50 | A session granted at `now` serves every call in the next 300000 ms with no further auth request. |
| `Widget.Summarise` | org.kde.plasma.pihole/pihole-widget/contents/code/pihole.js:90-93 | The status is "enabled" exactly when `blocking` is "enabled" or true, and "disabled" otherwise. A truthy timer is kept, and a missing or falsy one becomes 0. |
| `Widget.StatusReply` | org.kde.plasma.pihole/pihole-widget/contents/code/pihole.js:85-104 | The status read succeeds exactly on a 200 with a parsed non-null body. Any other code gives "Request failed". An unparseable or null 200 body gives "Invalid response", a timeout "Timeout", and a network error "Network error". |
| `Widget.GetStatus` | org.kde.plasma.pihole/pihole-widget/contents/code/pihole.js:68-107 | A missing (null or empty, untrimmed) host or password gives "Missing configuration" with no request. An auth refusal becomes the call's error with no status read. Otherwise one status read with the granted sid. |
| `Widget.Payload` | org.kde.plasma.pihole/pihole-widget/contents/code/pihole.js:131-134 | The body carries `blocking: enabled`, and a timer exactly when disabling for a positive number of seconds. |
| `Widget.SetBlocking` | org.kde.plasma.pihole/pihole-widget/contents/code/pihole.js:109-137 | A refused authentication reports false and sends no POST. Otherwise one POST is sent with the granted sid, and the result is true exactly when it completed with status 200. |
| `Widget.Enable` | org.kde.plasma.pihole/pihole-widget/contents/code/pihole.js:139-141 | enable posts blocking on and never a timer. |
| `Widget.Disable` | org.kde.plasma.pihole/pihole-widget/contents/code/pihole.js:143-145 | disable posts the body `Payload(false, seconds)`: blocking off, with a timer exactly when the seconds are positive, equal to them. |
| `Widget.FormatTime` | org.kde.plasma.pihole/pihole-widget/contents/code/pihole.js:23-28 | No time left gives "0s". From 60 seconds up the text is "<m>m <s>s" with m > 0 and s < 60. Below a minute it is "<s>s" of the seconds themselves. |
| `Widget.FormatTimeReadsBack` | org.kde.plasma.pihole/pihole-widget/contents/code/pihole.js:23-28 | Reading the widget's formatted text back gives exactly the seconds it was made from, or 0 for no time left. |

## Left out

- XMLHttpRequest and the asynchronous callbacks are not modelled. Each request is one injected exchange, and continuations are composed in sequence. A real request can call back twice (readyState with status 0 and then ontimeout/onerror). Only one of these outcomes is modelled.
- `JSON.parse` and `JSON.stringify` are not modelled. A response is given as its text and an independent parsed body (or parse failure), and request bodies are records.
- URL building and `encodeURIComponent` are not modelled: they are library calls. Requests carry host and key as values.
- Logging, `debugMode` and the masking of the key in logged URLs are left out: they are diagnostic output only.
- The "Exception: " branches, which embed the host's exception text around `open`/`send`, are left out.
- Interleaving of concurrent top-level calls on the shared globals is left out. Calls are applied one after another.
- JavaScript numbers are doubles; the model's are unbounded integers. Number-to-text concatenation (`"HTTP " + status`, `hours + "h "`) switches to exponent form from 1e21, where `Decimal.NatToString` keeps printing every digit. And `now + validity * 1000` loses precision beyond 2^53, where the model stays exact.
- Numbers are integers. Fractional seconds, validities or timers are not modelled, so the `Math.floor` in both `formatTime` variants has nothing to do.
- `RestApi.Lifetime`: `validity * 1000` coerces numbers, booleans and null as JavaScript does, but every string, array or object becomes NaN. Numeric strings such as "300", which JavaScript would convert, are treated as NaN too.
- The text of the TypeError thrown when a handler reads a member of a `null` body is engine-specific. It is modelled as one fixed message naming the member (`Protocol.NullReadError`).
- The second client's `REQUEST_TIMEOUT` and the main client's 5000 ms timeouts are not modelled: timing is outside the model, and a timeout is simply one of the exchanges.

=== FILE: decimal.dfy ===
/**
 * Decimal rendering of integers, as JavaScript's `"text" + n` produces it for
 * integral numbers, and a reader that recovers the integer from the text.
 */
module Decimal {
  import opened Wrappers

  predicate IsDigit(c: char) {
    '0' <= c <= '9'
  }

  predicate AllDigits(s: string) {
    forall i :: 0 <= i < |s| ==> IsDigit(s[i])
  }

  function DigitChar(d: nat): (c: char)
    requires d < 10
    ensures IsDigit(c) && c as int - '0' as int == d
  {
    ('0' as int + d) as char
  }

  /** The shortest decimal numeral of `n`. */
  function NatToString(n: nat): (s: string)
    ensures |s| >= 1 && AllDigits(s)
    ensures |s| > 1 ==> s[0] != '0'
    decreases n
  {
    if n < 10 then [DigitChar(n)] else NatToString(n / 10) + [DigitChar(n % 10)]
  }

  /** The decimal numeral of `i`, with a leading '-' when it is negative. */
  function IntToString(i: int): (s: string)
    ensures |s| >= 1
    ensures s[0] == '-' <==> i < 0
  {
    if i < 0 then "-" + NatToString(-i) else NatToString(i)
  }

  /** The number a string of digits denotes. */
  function DigitsValue(s: string): nat
    requires AllDigits(s)
    decreases |s|
  {
    if s == [] then 0 else 10 * DigitsValue(s[..|s| - 1]) + (s[|s| - 1] as int - '0' as int)
  }

  /** The length of the longest prefix of `s` made of digits. */
  function DigitRun(s: string): (k: nat)
    ensures k <= |s| && AllDigits(s[..k])
    ensures k < |s| ==> !IsDigit(s[k])
    decreases |s|
  {
    if s == [] || !IsDigit(s[0]) then 0 else 1 + DigitRun(s[1..])
  }

  /** Reads a natural number off the front of `s`, returning it with the rest of the text. */
  function ReadNat(s: string): (r: Option<(nat, string)>)
    ensures r.Some? <==> s != [] && IsDigit(s[0])
  {
    var k := DigitRun(s);
    if k == 0 then None else Some((DigitsValue(s[..k]), s[k..]))
  }

  /** Reads an optionally negative integer off the front of `s`. */
  function ReadInt(s: string): Option<(int, string)> {
    var negative := s != [] && s[0] == '-';
    var r := ReadNat(if negative then s[1..] else s);
    if r.None? then None
    else
      var magnitude: int := r.value.0;
      Some((if negative then -magnitude else magnitude, r.value.1))
  }

  lemma {:induction false} NatToStringValue(n: nat)
    ensures DigitsValue(NatToString(n)) == n
    decreases n
  {
    if n >= 10 {
      NatToStringValue(n / 10);
      var s := NatToString(n);
      assert s[..|s| - 1] == NatToString(n / 10);
    }
  }

  lemma {:induction false} DigitRunOfDigits(d: string, rest: string)
    requires AllDigits(d)
    requires rest == [] || !IsDigit(rest[0])
    ensures DigitRun(d + rest) == |d|
    decreases |d|
  {
    if d != [] {
      assert (d + rest)[1..] == d[1..] + rest;
      DigitRunOfDigits(d[1..], rest);
    }
  }

  /** Reading a numeral back, when it is followed by no further digit, yields the number and the rest. */
  lemma ReadNatRoundTrip(n: nat, rest: string)
    requires rest == [] || !IsDigit(rest[0])
    ensures ReadNat(NatToString(n) + rest) == Some((n, rest))
  {
    var d := NatToString(n);
    DigitRunOfDigits(d, rest);
    assert (d + rest)[..|d|] == d;
    assert (d + rest)[|d|..] == rest;
    NatToStringValue(n);
  }

  /** Every integer is recovered from its decimal numeral. */
  lemma ReadIntRoundTrip(i: int, rest: string)
    requires rest == [] || !IsDigit(rest[0])
    ensures ReadInt(IntToString(i) + rest) == Some((i, rest))
  {
    if i < 0 {
      ReadNegative(-i, rest);
    } else {
      ReadNonNegative(i, rest);
    }
  }

  lemma ReadNegative(n: nat, rest: string)
    requires n > 0
    requires rest == [] || !IsDigit(rest[0])
    ensures ReadInt("-" + NatToString(n) + rest) == Some((-(n as int), rest))
  {
    var s := "-" + NatToString(n) + rest;
    assert s[0] == '-';
    assert s[1..] == NatToString(n) + rest;
    ReadNatRoundTrip(n, rest);
    assert ReadNat(s[1..]) == Some((n, rest));
  }

  lemma ReadNonNegative(n: nat, rest: string)
    requires rest == [] || !IsDigit(rest[0])
    ensures ReadInt(NatToString(n) + rest) == Some((n, rest))
  {
    var s := NatToString(n) + rest;
    assert s[0] == NatToString(n)[0];
    ReadNatRoundTrip(n, rest);
  }
}

=== FILE: display.dfy ===
/** formatTime of the main client: the remaining disable time as text. */
module Display {
  import opened Wrappers
  import opened Decimal
  import opened DurationText

  /**
   * The hours, minutes and seconds formatTime computes from a positive
   * number of seconds: `seconds / 3600`, `(seconds % 3600) / 60` and
   * `seconds % 60`, which together make up the whole amount.
   */
  function Clock(seconds: nat): (r: (nat, nat, nat))
    ensures r.1 < 60 && r.2 < 60
    ensures r.0 * 3600 + r.1 * 60 + r.2 == seconds
    ensures r.0 > 0 <==> seconds >= 3600
    ensures r.2 == seconds % 60
  {
    var hours := seconds / 3600;
    var rem := seconds % 3600;
    var minutes := rem / 60;
    assert rem == minutes * 60 + rem % 60;
    RemainderBySixty(seconds, hours * 60 + minutes, rem % 60);
    (hours, minutes, seconds % 60)
  }

  /** The remainder by 60 is the part below 60 of any split into whole minutes and seconds. */
  lemma RemainderBySixty(a: nat, q: nat, r: nat)
    requires a == q * 60 + r && r < 60
    ensures a % 60 == r
  {
  }

  /**
   * "Disabled" for no time left; otherwise "<h>h <m>m" once an hour is left,
   * "<m>m <s>s" once a minute is, and "<s>s" below that.
   */
  function FormatTime(seconds: int): (t: string)
    ensures seconds <= 0 ==> t == "Disabled"
    ensures seconds > 0 ==> |t| > 0 && IsDigit(t[0])
    ensures seconds >= 3600 ==>
              exists h: nat, m: nat :: h > 0 && m < 60 && t == NatToString(h) + ("h " + NatToString(m) + "m")
    ensures 60 <= seconds < 3600 ==>
              exists m: nat, s: nat :: 0 < m < 60 && s < 60 && t == NatToString(m) + ("m " + NatToString(s) + "s")
    ensures 0 < seconds < 60 ==> t == NatToString(seconds) + "s"
  {
    if seconds <= 0 then "Disabled"
    else
      var c := Clock(seconds);
      if c.0 > 0 then NatToString(c.0) + ("h " + NatToString(c.1) + "m")
      else if c.1 > 0 then NatToString(c.1) + ("m " + NatToString(c.2) + "s")
      else NatToString(c.2) + "s"
  }

  /**
   * Reading a formatted time back gives the seconds it was made from, except
   * that from one hour up the seconds within the last minute are dropped.
   */
  lemma FormatTimeReadsBack(seconds: int)
    ensures ParseDuration(FormatTime(seconds))
            == Some(if seconds <= 0 then 0
                    else if seconds >= 3600 then seconds - seconds % 60
                    else seconds)
  {
    if seconds >= 3600 {
      ReadsBackHours(seconds);
    } else if seconds > 0 {
      ReadsBackBelowHour(seconds);
    }
  }

  lemma ReadsBackHours(seconds: nat)
    requires seconds >= 3600
    ensures ParseDuration(FormatTime(seconds)) == Some(seconds - seconds % 60)
  {
    var c := Clock(seconds);
    assert FormatTime(seconds) == NatToString(c.0) + ("h " + NatToString(c.1) + "m");
    ReadPair(c.0, "h ", c.1, "m");
  }

  lemma ReadsBackBelowHour(seconds: nat)
    requires 0 < seconds < 3600
    ensures ParseDuration(FormatTime(seconds)) == Some(seconds)
  {
    var c := Clock(seconds);
    if c.1 > 0 {
      assert FormatTime(seconds) == NatToString(c.1) + ("m " + NatToString(c.2) + "s");
      ReadPair(c.1, "m ", c.2, "s");
    } else {
      assert FormatTime(seconds) == NatToString(c.2) + "s";
      ReadSeconds(c.2);
    }
  }
}

=== FILE: duration_text.dfy ===
/**
 * A reader for the duration texts both formatTime variants produce
 * ("2h 5m", "4m 10s", "7s", "Disabled"), used to state what a formatted text
 * says about the number of seconds it was made from.
 */
module DurationText {
  import opened Wrappers
  import opened Decimal

  /** The number of seconds a duration text denotes, or None when it is not one. */
  function ParseDuration(t: string): Option<int> {
    if t == "Disabled" then Some(0)
    else
      match ReadNat(t)
      case None => None
      case Some((a, rest)) => ParseUnits(a, rest)
  }

  /** The seconds denoted by a leading number `a` followed by the text `rest`. */
  function ParseUnits(a: nat, rest: string): Option<int> {
    if rest == "s" then Some(a)
    else if |rest| >= 2 && rest[1] == ' ' then
      match ReadNat(rest[2..])
      case None => None
      case Some((b, tail)) => Combine(a, rest[0], b, tail)
    else None
  }

  /** "<a>h <b>m" or "<a>m <b>s", given its two numbers, its first unit and its tail. */
  function Combine(a: nat, unit: char, b: nat, tail: string): Option<int> {
    if unit == 'h' && tail == "m" then Some(a * 3600 + b * 60)
    else if unit == 'm' && tail == "s" then Some(a * 60 + b)
    else None
  }

  /** "<a>s" reads back as `a` seconds. */
  lemma ReadSeconds(a: nat)
    ensures ParseDuration(NatToString(a) + "s") == Some(a)
  {
    ReadLeading(a, "s");
  }

  /** A numeral followed by a non-digit is read as that number, the rest going to ParseUnits. */
  lemma ReadLeading(a: nat, rest: string)
    requires rest != [] && !IsDigit(rest[0])
    ensures ParseDuration(NatToString(a) + rest) == ParseUnits(a, rest)
  {
    var t := NatToString(a) + rest;
    assert t != "Disabled" by {
      assert t[0] == NatToString(a)[0];
    }
    ReadNatRoundTrip(a, rest);
  }

  /** "<unit> <b><small>" after a number `a` is combined from `a`, `unit` and `b`. */
  lemma ReadUnitTail(a: nat, unitText: string, b: nat, small: string)
    requires |unitText| == 2 && unitText[1] == ' '
    requires small == "m" || small == "s"
    ensures ParseUnits(a, unitText + NatToString(b) + small) == Combine(a, unitText[0], b, small)
  {
    var rest := unitText + NatToString(b) + small;
    assert rest[2..] == NatToString(b) + small;
    ReadNatRoundTrip(b, small);
    assert |rest| >= 2 && rest[0] == unitText[0] && rest[1] == ' ';
    assert rest != "s";
  }

  /** "<a>h <b>m" and "<a>m <b>s" read back as `a` units and `b` smaller units. */
  lemma ReadPair(a: nat, unitText: string, b: nat, small: string)
    requires (unitText == "h " && small == "m") || (unitText == "m " && small == "s")
    ensures ParseDuration(NatToString(a) + (unitText + NatToString(b) + small))
            == Some(if unitText == "h " then a * 3600 + b * 60 else a * 60 + b)
  {
    ReadLeading(a, unitText + NatToString(b) + small);
    ReadUnitTail(a, unitText, b, small);
  }
}

=== FILE: jsstring.dfy ===
/** `String.prototype.trim` and the whitespace it removes. */
module JsString {

  /** The WhiteSpace and LineTerminator code points of ECMAScript. */
  predicate IsWhitespace(c: char) {
    || c == '\t' || c == '\n' || c == '\U{000B}' || c == '\U{000C}' || c == '\r'
    || c == ' ' || c == '\U{00A0}' || c == '\U{1680}'
    || ('\U{2000}' <= c <= '\U{200A}')
    || c == '\U{2028}' || c == '\U{2029}' || c == '\U{202F}' || c == '\U{205F}'
    || c == '\U{3000}' || c == '\U{FEFF}'
  }

  predicate AllWhitespace(s: string) {
    forall i :: 0 <= i < |s| ==> IsWhitespace(s[i])
  }

  /** `s` with its leading whitespace removed. */
  function TrimStart(s: string): (r: string)
    ensures |r| <= |s| && r == s[|s| - |r|..]
    ensures AllWhitespace(s[..|s| - |r|])
    ensures r != [] ==> !IsWhitespace(r[0])
    decreases |s|
  {
    if s != [] && IsWhitespace(s[0]) then TrimStart(s[1..]) else s
  }

  /** `s` with its trailing whitespace removed. */
  function TrimEnd(s: string): (r: string)
    ensures |r| <= |s| && r == s[..|r|]
    ensures AllWhitespace(s[|r|..])
    ensures r != [] ==> !IsWhitespace(r[|r| - 1])
    decreases |s|
  {
    if s != [] && IsWhitespace(s[|s| - 1]) then TrimEnd(s[..|s| - 1]) else s
  }

  /** `s.trim()`. */
  function Trim(s: string): string {
    TrimEnd(TrimStart(s))
  }

  /** `s.trim() === ""` holds exactly when every character of `s` is whitespace. */
  lemma TrimIsEmptyIffBlank(s: string)
    ensures Trim(s) == "" <==> AllWhitespace(s)
  {
    var t := TrimStart(s);
    if t != [] {
      assert t[0] == s[|s| - |t|];
    }
    if Trim(s) == "" {
      assert AllWhitespace(t[0..]);
      assert s[..|s| - |t|] == s;
    }
  }
}

=== FILE: jsvalue.dfy ===
/**
 * The JavaScript values the client reads out of parsed JSON bodies: what a
 * member access yields, when a value is truthy, what `a || b` picks and how a
 * value turns into a number of milliseconds.
 */
module JsValue {

  /** A value produced by JSON.parse. Numbers are restricted to integers. */
  datatype Json =
    | JNull
    | JBool(b: bool)
    | JNum(n: int)
    | JStr(s: string)
    | JArr(items: seq<Json>)
    | JObj(fields: map<string, Json>)

  /**
   * What evaluating `v.key` does: reading a member of `null` throws a
   * TypeError, reading an absent member yields `undefined`.
   */
  datatype Access = Throws | Missing | Found(value: Json)

  function Member(v: Json, key: string): (a: Access)
    ensures a.Throws? <==> v == JNull
    ensures a.Found? <==> v.JObj? && key in v.fields
    ensures a.Found? ==> a.value == v.fields[key]
  {
    match v
    case JNull => Throws
    case JObj(m) => if key in m then Found(m[key]) else Missing
    case _ => Missing
  }

  /** JavaScript truthiness of a JSON value. */
  predicate Truthy(v: Json) {
    match v
    case JNull => false
    case JBool(b) => b
    case JNum(n) => n != 0
    case JStr(s) => s != ""
    case JArr(_) => true
    case JObj(_) => true
  }

  /** Truthiness of a member read that did not throw (`undefined` is falsy). */
  predicate Present(a: Access) {
    a.Found? && Truthy(a.value)
  }

  /** `a || d`: the member's value when it is truthy, `d` otherwise. */
  function OrDefault(a: Access, d: Json): (r: Json)
    requires !a.Throws?
    ensures Present(a) ==> r == a.value
    ensures !Present(a) ==> r == d
  {
    if Present(a) then a.value else d
  }

  /** Strict equality `v.key === w` of a member read against a JSON value. */
  predicate MemberIs(a: Access, w: Json) {
    a.Found? && a.value == w
  }

  /** A JavaScript number used as a millisecond instant: an integer, or NaN. */
  datatype Instant = Ms(ms: int) | NaN

  /** `e > now`; every comparison with NaN is false. */
  predicate After(e: Instant, now: int) {
    e.Ms? && e.ms > now
  }

  /**
   * Numeric conversion of a JSON value, as `*` applies it. Numbers, booleans
   * and null convert exactly; every other value is treated as NaN.
   */
  function ToNumber(v: Json): (r: Instant)
    ensures v.JNum? ==> r == Ms(v.n)
    ensures v.JStr? || v.JArr? || v.JObj? ==> r == NaN
  {
    match v
    case JNull => Ms(0)
    case JBool(b) => if b then Ms(1) else Ms(0)
    case JNum(n) => Ms(n)
    case _ => NaN
  }

  /** `now + v * 1000`: the instant `v` seconds after `now`, NaN when `v` is not a number. */
  function SecondsAfter(now: int, v: Json): (r: Instant)
    ensures r.Ms? <==> ToNumber(v).Ms?
    ensures r.Ms? ==> r.ms - now == 1000 * ToNumber(v).ms
  {
    match ToNumber(v)
    case Ms(n) => Ms(now + n * 1000)
    case NaN => NaN
  }
}

=== FILE: legacy_api.dfy ===
/**
 * The legacy (v5) adapter: GET requests on /admin/api.php carrying the API key
 * as a query parameter. Each function maps the exchange of one request to the
 * outcome the adapter reports.
 */
module LegacyApi {
  import opened Wrappers
  import opened JsValue
  import opened Decimal
  import opened Protocol

  const AuthFailed := "Authentication failed - check your App Password/API Key"
  const MissingStatus := "No status field in response"

  /** The message reported for a completed status request whose code is not 200, 0 or 401. */
  function HttpError(code: int): (m: string)
    ensures |m| > 5 && m[..5] == "HTTP "
    ensures ReadInt(m[5..]) == Some((code, ""))
  {
    ReadIntRoundTrip(code, "");
    assert IntToString(code) + "" == IntToString(code);
    "HTTP " + IntToString(code)
  }

  /**
   * The outcome of tryV5Status for a request to `host`. A 200 succeeds only
   * when its body parses and carries a truthy `status` member.
   */
  function StatusOutcome(host: string, x: Exchange): (r: Outcome)
    ensures r.Ok? <==> (x.Done? && x.status == 200 && x.body.Parsed?
                        && Present(Member(x.body.json, "status")))
    ensures r.Ok? ==> r.payload == Raw(x.body.json)
    ensures (x.Done? && x.status == 200 && x.body.Parsed? && x.body.json != JNull
             && !Present(Member(x.body.json, "status"))) ==> r == Err(MissingStatus)
    ensures x.Done? && x.status == 200 && x.body.Unparseable? ==> r == Err("Failed to parse JSON: " + x.body.reason)
    ensures x.Done? && x.status == 200 && x.body.Parsed? && x.body.json == JNull
            ==> r == Err("Failed to parse JSON: " + NullReadError("status"))
    ensures x.Done? && x.status == 0 ==> r == Err("Network error - cannot reach Pi-hole at " + host)
    ensures x.Done? && x.status == 401 ==> r == Err(AuthFailed)
    ensures x.Done? && x.status != 0 && x.status != 200 && x.status != 401 ==> r == Err(HttpError(x.status))
    ensures x.TimedOut? ==> r == Err("Timeout connecting to Pi-hole")
    ensures x.NetworkError? ==> r == Err("Network error - check Pi-hole IP address")
  {
    match x
    case TimedOut => Err("Timeout connecting to Pi-hole")
    case NetworkError => Err("Network error - check Pi-hole IP address")
    case Done(code, _, body) =>
      if code == 200 then
        match body
        case Unparseable(e) => Err("Failed to parse JSON: " + e)
        case Parsed(j) =>
          var status := Member(j, "status");
          if status.Throws? then Err("Failed to parse JSON: " + NullReadError("status"))
          else if Present(status) then Ok(Raw(j))
          else Err(MissingStatus)
      else if code == 0 then Err("Network error - cannot reach Pi-hole at " + host)
      else if code == 401 then Err(AuthFailed)
      else Err(HttpError(code))
  }

  /**
   * The outcome of tryV5Disable and tryV5Enable, which classify alike: a 200
   * with any parseable body succeeds and hands the body on.
   */
  function AckOutcome(x: Exchange): (r: Outcome)
    ensures r.Ok? <==> x.Done? && x.status == 200 && x.body.Parsed?
    ensures r.Ok? ==> r.payload == Raw(x.body.json)
    ensures x.Done? && x.status == 200 && x.body.Unparseable? ==> r == Err("Failed to parse response")
    ensures x.Done? && x.status != 200 ==> r == Err(HttpError(x.status))
    ensures x.TimedOut? ==> r == Err("Timeout")
    ensures x.NetworkError? ==> r == Err("Network error")
  {
    match x
    case TimedOut => Err("Timeout")
    case NetworkError => Err("Network error")
    case Done(code, _, body) =>
      if code == 200 then
        match body
        case Unparseable(_) => Err("Failed to parse response")
        case Parsed(j) => Ok(Raw(j))
      else Err(HttpError(code))
  }
}

=== FILE: negotiator.dfy ===
/**
 * The negotiator of the main client: getStatus, disable and enable try the
 * preferred API generation first and fall back to the other one. The learned
 * preference and the v6 session are threaded through as an explicit `State`.
 */
module Negotiator {
  import opened JsString
  import opened Protocol
  import LegacyApi
  import RestApi

  /** The global `preferredApiVersion`: null, "v5" or "v6". */
  datatype Preference = Unlearned | PreferV5 | PreferV6

  /** The client's globals: the learned preference and the v6 session. */
  datatype State = State(preferred: Preference, session: RestApi.Session)

  /** The globals as the script loads them: nothing learned and no session. */
  const Initial := State(Unlearned, RestApi.InitialSession)

  /** The result of one top-level call, the state it leaves and the requests it issued. */
  datatype Call = Call(out: Outcome, state: State, trace: seq<Request>)

  const HostEmpty := "Pi-hole IP address is empty"
  const KeyEmpty := "App Password/API Key is empty"
  const Guidance := "Cannot connect to Pi-hole.\nCheck IP address and App Password.\n\nDetails:\n"
  const DisableFailed := "Failed to disable: "
  const EnableFailed := "Failed to enable: "

  /** `!v || v.trim() === ""`. */
  predicate Blank(v: Setting) {
    v.None? || Trim(v.value) == ""
  }

  /** The generation whose requests come first in a call made under preference `p`. */
  predicate LegacyFirst(p: Preference) {
    p != PreferV6
  }

  /**
   * getStatus. The host is checked before the key and a blank one fails with
   * no request. Under a v6 preference the v6 adapter is tried first and a v5
   * fallback result is returned as it is; otherwise v5 is tried first, its
   * success teaches "v5", a v6 success after its failure teaches "v6", and a
   * double failure reports the v5 error behind a fixed guidance text.
   */
  function GetStatus(host: Setting, apiKey: Setting, st: State, now: int, net: Network): (c: Call)
    ensures Blank(host) ==> c == Call(Err(HostEmpty), st, [])
    ensures !Blank(host) && Blank(apiKey) ==> c == Call(Err(KeyEmpty), st, [])
    ensures !Blank(host) && !Blank(apiKey) ==>
              |c.trace| > 0 && (IsLegacy(c.trace[0]) <==> LegacyFirst(st.preferred))
    ensures !Blank(host) && !Blank(apiKey) && !LegacyFirst(st.preferred) ==>
              var v6 := RestApi.Status(host, apiKey, st.session, now, net);
              var v5 := LegacyApi.StatusOutcome(host.value, net(V5Status(host, apiKey)));
              && c.state == State(PreferV6, v6.session)
              && (v6.out.Ok? ==> c.out == v6.out && c.trace == v6.trace)
              && (v6.out.Err? ==> c.out == v5 && c.trace == v6.trace + [V5Status(host, apiKey)])
    ensures !Blank(host) && !Blank(apiKey) && LegacyFirst(st.preferred) ==>
              var v5 := LegacyApi.StatusOutcome(host.value, net(V5Status(host, apiKey)));
              var v6 := RestApi.Status(host, apiKey, st.session, now, net);
              && (v5.Ok? ==> c == Call(v5, State(PreferV5, st.session), [V5Status(host, apiKey)]))
              && (v5.Err? ==> c.trace == [V5Status(host, apiKey)] + v6.trace && c.state.session == v6.session)
              && (v5.Err? && v6.out.Ok? ==> c.out == v6.out && c.state.preferred == PreferV6)
              && (v5.Err? && v6.out.Err? ==> c.out == Err(Guidance + v5.error) && c.state.preferred == st.preferred)
  {
    if Blank(host) then Call(Err(HostEmpty), st, [])
    else if Blank(apiKey) then Call(Err(KeyEmpty), st, [])
    else
      var legacy := V5Status(host, apiKey);
      if st.preferred == PreferV6 then
        var v6 := RestApi.Status(host, apiKey, st.session, now, net);
        if v6.out.Ok? then Call(v6.out, State(st.preferred, v6.session), v6.trace)
        else Call(LegacyApi.StatusOutcome(host.value, net(legacy)), State(st.preferred, v6.session), v6.trace + [legacy])
      else
        var v5 := LegacyApi.StatusOutcome(host.value, net(legacy));
        if v5.Ok? then Call(v5, State(PreferV5, st.session), [legacy])
        else
          var v6 := RestApi.Status(host, apiKey, st.session, now, net);
          if v6.out.Ok? then Call(v6.out, State(PreferV6, v6.session), [legacy] + v6.trace)
          else Call(Err(Guidance + v5.error), State(st.preferred, v6.session), [legacy] + v6.trace)
  }

  /**
   * disable. No input check; the preference only picks the order and is
   * never written. A v5 fallback result is returned as it is; when v6 is the
   * fallback and fails too, its error is reported.
   */
  function Disable(host: Setting, apiKey: Setting, seconds: int, st: State, now: int, net: Network): (c: Call)
    ensures c.state.preferred == st.preferred
    ensures |c.trace| > 0 && (IsLegacy(c.trace[0]) <==> LegacyFirst(st.preferred))
    ensures var v6 := RestApi.Disable(host, apiKey, seconds, st.session, now, net);
            var v5 := LegacyApi.AckOutcome(net(V5Disable(host, apiKey, seconds)));
            && (!LegacyFirst(st.preferred) ==>
                  && c.state.session == v6.session
                  && c.out == (if v6.out.Ok? then v6.out else v5))
            && (LegacyFirst(st.preferred) ==>
                  && c.state.session == (if v5.Ok? then st.session else v6.session)
                  && c.out == (if v5.Ok? then v5
                               else if v6.out.Ok? then v6.out
                               else Err(DisableFailed + v6.out.error)))
            && (!LegacyFirst(st.preferred) ==> c.trace == v6.trace + (if v6.out.Ok? then [] else [V5Disable(host, apiKey, seconds)]))
            && (LegacyFirst(st.preferred) ==> c.trace == [V5Disable(host, apiKey, seconds)] + (if v5.Ok? then [] else v6.trace))
  {
    var legacy := V5Disable(host, apiKey, seconds);
    if st.preferred == PreferV6 then
      var v6 := RestApi.Disable(host, apiKey, seconds, st.session, now, net);
      if v6.out.Ok? then Call(v6.out, State(st.preferred, v6.session), v6.trace)
      else Call(LegacyApi.AckOutcome(net(legacy)), State(st.preferred, v6.session), v6.trace + [legacy])
    else
      var v5 := LegacyApi.AckOutcome(net(legacy));
      if v5.Ok? then Call(v5, st, [legacy])
      else
        var v6 := RestApi.Disable(host, apiKey, seconds, st.session, now, net);
        if v6.out.Ok? then Call(v6.out, State(st.preferred, v6.session), [legacy] + v6.trace)
        else Call(Err(DisableFailed + v6.out.error), State(st.preferred, v6.session), [legacy] + v6.trace)
  }

  /** enable: as disable, with the enable requests and "Failed to enable: ". */
  function Enable(host: Setting, apiKey: Setting, st: State, now: int, net: Network): (c: Call)
    ensures c.state.preferred == st.preferred
    ensures |c.trace| > 0 && (IsLegacy(c.trace[0]) <==> LegacyFirst(st.preferred))
    ensures var v6 := RestApi.Enable(host, apiKey, st.session, now, net);
            var v5 := LegacyApi.AckOutcome(net(V5Enable(host, apiKey)));
            && (!LegacyFirst(st.preferred) ==>
                  && c.state.session == v6.session
                  && c.out == (if v6.out.Ok? then v6.out else v5))
            && (LegacyFirst(st.preferred) ==>
                  && c.state.session == (if v5.Ok? then st.session else v6.session)
                  && c.out == (if v5.Ok? then v5
                               else if v6.out.Ok? then v6.out
                               else Err(EnableFailed + v6.out.error)))
            && (!LegacyFirst(st.preferred) ==> c.trace == v6.trace + (if v6.out.Ok? then [] else [V5Enable(host, apiKey)]))
            && (LegacyFirst(st.preferred) ==> c.trace == [V5Enable(host, apiKey)] + (if v5.Ok? then [] else v6.trace))
  {
    var legacy := V5Enable(host, apiKey);
    if st.preferred == PreferV6 then
      var v6 := RestApi.Enable(host, apiKey, st.session, now, net);
      if v6.out.Ok? then Call(v6.out, State(st.preferred, v6.session), v6.trace)
      else Call(LegacyApi.AckOutcome(net(legacy)), State(st.preferred, v6.session), v6.trace + [legacy])
    else
      var v5 := LegacyApi.AckOutcome(net(legacy));
      if v5.Ok? then Call(v5, st, [legacy])
      else
        var v6 := RestApi.Enable(host, apiKey, st.session, now, net);
        if v6.out.Ok? then Call(v6.out, State(st.preferred, v6.session), [legacy] + v6.trace)
        else Call(Err(EnableFailed + v6.out.error), State(st.preferred, v6.session), [legacy] + v6.trace)
  }

  /**
   * The learned preference only ever changes to the generation that just
   * answered getStatus successfully: the one whose request was sent last.
   */
  lemma PreferenceFollowsSuccess(host: Setting, apiKey: Setting, st: State, now: int, net: Network)
    ensures var c := GetStatus(host, apiKey, st, now, net);
            c.state.preferred != st.preferred ==>
              && c.out.Ok?
              && c.state.preferred != Unlearned
              && (c.state.preferred == PreferV5 <==> IsLegacy(c.trace[|c.trace| - 1]))
  {
    var c := GetStatus(host, apiKey, st, now, net);
    if Blank(host) || Blank(apiKey) {
      assert c.state == st;
    } else if !LegacyFirst(st.preferred) {
      assert c.state.preferred == PreferV6 == st.preferred;
    } else {
      var v5 := LegacyApi.StatusOutcome(host.value, net(V5Status(host, apiKey)));
      if v5.Ok? {
        assert c.trace == [V5Status(host, apiKey)] && c.state.preferred == PreferV5;
      } else {
        LegacyFailureThenV6(host, apiKey, st, now, net);
      }
    }
  }

  /** The v5-first branch of getStatus in which v5 has failed and v6 is asked. */
  lemma LegacyFailureThenV6(host: Setting, apiKey: Setting, st: State, now: int, net: Network)
    requires !Blank(host) && !Blank(apiKey) && LegacyFirst(st.preferred)
    requires LegacyApi.StatusOutcome(host.value, net(V5Status(host, apiKey))).Err?
    ensures var c := GetStatus(host, apiKey, st, now, net);
            c.state.preferred != st.preferred ==>
              && c.out.Ok?
              && c.state.preferred == PreferV6
              && !IsLegacy(c.trace[|c.trace| - 1])
  {
    var c := GetStatus(host, apiKey, st, now, net);
    var v6 := RestApi.Status(host, apiKey, st.session, now, net);
    assert c.trace == [V5Status(host, apiKey)] + v6.trace;
    if v6.out.Ok? {
      RestApi.StatusSuccessEndsWithRead(host, apiKey, st.session, now, net);
      assert c.trace[|c.trace| - 1] == v6.trace[|v6.trace| - 1];
    }
  }

  /**
   * With a usable v6 session, no operation authenticates again, whichever
   * generation it tries first and whether or not it falls back.
   */
  lemma NoAuthWhileSessionUsable(host: Setting, apiKey: Setting, seconds: int, st: State, now: int, net: Network)
    requires RestApi.Usable(st.session, now)
    ensures forall r | r in GetStatus(host, apiKey, st, now, net).trace :: !r.V6Auth?
    ensures forall r | r in Disable(host, apiKey, seconds, st, now, net).trace :: !r.V6Auth?
    ensures forall r | r in Enable(host, apiKey, st, now, net).trace :: !r.V6Auth?
  {
    NoAuthInStatus(host, apiKey, st, now, net);
    NoAuthInDisable(host, apiKey, seconds, st, now, net);
    NoAuthInEnable(host, apiKey, st, now, net);
  }

  lemma NoAuthInStatus(host: Setting, apiKey: Setting, st: State, now: int, net: Network)
    requires RestApi.Usable(st.session, now)
    ensures forall r | r in GetStatus(host, apiKey, st, now, net).trace :: !r.V6Auth?
  {
    var c := GetStatus(host, apiKey, st, now, net);
    var legacy := V5Status(host, apiKey);
    var read := V6GetBlocking(host, st.session.id);
    RestApi.UsableSessionSkipsAuth(host, apiKey, RestApi.EnablePayload, st.session, now, net);
    if Blank(host) || Blank(apiKey) {
      assert c.trace == [];
    } else if st.preferred == PreferV6 {
      var v6 := RestApi.Status(host, apiKey, st.session, now, net);
      if v6.out.Ok? {
        assert c.trace == [read];
      } else {
        assert c.trace == [read] + [legacy];
      }
    } else {
      var v5 := LegacyApi.StatusOutcome(host.value, net(legacy));
      if v5.Ok? {
        assert c.trace == [legacy];
      } else {
        assert c.trace == [legacy] + [read];
      }
    }
  }

  lemma NoAuthInDisable(host: Setting, apiKey: Setting, seconds: int, st: State, now: int, net: Network)
    requires RestApi.Usable(st.session, now)
    ensures forall r | r in Disable(host, apiKey, seconds, st, now, net).trace :: !r.V6Auth?
  {
    var c := Disable(host, apiKey, seconds, st, now, net);
    var legacy := V5Disable(host, apiKey, seconds);
    var post := V6SetBlocking(host, st.session.id, RestApi.DisablePayload(seconds));
    RestApi.UsableSessionSkipsAuth(host, apiKey, RestApi.DisablePayload(seconds), st.session, now, net);
    var v6 := RestApi.Disable(host, apiKey, seconds, st.session, now, net);
    assert v6.trace == [post];
    if st.preferred == PreferV6 {
      if v6.out.Ok? {
        assert c.trace == [post];
      } else {
        assert c.trace == [post] + [legacy];
      }
    } else {
      if LegacyApi.AckOutcome(net(legacy)).Ok? {
        assert c.trace == [legacy];
      } else {
        assert c.trace == [legacy] + [post];
      }
    }
  }

  lemma NoAuthInEnable(host: Setting, apiKey: Setting, st: State, now: int, net: Network)
    requires RestApi.Usable(st.session, now)
    ensures forall r | r in Enable(host, apiKey, st, now, net).trace :: !r.V6Auth?
  {
    var c := Enable(host, apiKey, st, now, net);
    var legacy := V5Enable(host, apiKey);
    var post := V6SetBlocking(host, st.session.id, RestApi.EnablePayload);
    RestApi.UsableSessionSkipsAuth(host, apiKey, RestApi.EnablePayload, st.session, now, net);
    var v6 := RestApi.Enable(host, apiKey, st.session, now, net);
    assert v6.trace == [post];
    if st.preferred == PreferV6 {
      if v6.out.Ok? {
        assert c.trace == [post];
      } else {
        assert c.trace == [post] + [legacy];
      }
    } else {
      if LegacyApi.AckOutcome(net(legacy)).Ok? {
        assert c.trace == [legacy];
      } else {
        assert c.trace == [legacy] + [post];
      }
    }
  }

  /**
   * A getStatus that found v5 failing and v6 answering leaves "v6" learned,
   * so the next getStatus, disable and enable all start with v6.
   */
  lemma LearnedV6IsTriedFirst(host: Setting, apiKey: Setting, st: State, now: int, net: Network,
                              host': Setting, apiKey': Setting, seconds: int, now': int, net': Network)
    requires !Blank(host) && !Blank(apiKey) && !Blank(host') && !Blank(apiKey')
    requires LegacyFirst(st.preferred)
    requires LegacyApi.StatusOutcome(host.value, net(V5Status(host, apiKey))).Err?
    requires GetStatus(host, apiKey, st, now, net).out.Ok?
    ensures var next := GetStatus(host, apiKey, st, now, net).state;
            && next.preferred == PreferV6
            && !IsLegacy(GetStatus(host', apiKey', next, now', net').trace[0])
            && !IsLegacy(Disable(host', apiKey', seconds, next, now', net').trace[0])
            && !IsLegacy(Enable(host', apiKey', next, now', net').trace[0])
  {
  }

  /**
   * Once "v6" is learned it stays: a v6 failure answered by the v5 fallback
   * is returned to the caller but does not switch the preference back.
   */
  lemma V6PreferenceIsSticky(host: Setting, apiKey: Setting, st: State, now: int, net: Network)
    requires !Blank(host) && !Blank(apiKey)
    requires st.preferred == PreferV6
    requires RestApi.Status(host, apiKey, st.session, now, net).out.Err?
    requires LegacyApi.StatusOutcome(host.value, net(V5Status(host, apiKey))).Ok?
    ensures var c := GetStatus(host, apiKey, st, now, net);
            c.out.Ok? && IsLegacy(c.trace[|c.trace| - 1]) && c.state.preferred == PreferV6
  {
  }

  /**
   * getStatus rejects, with no request, exactly the hosts that are null,
   * undefined or made only of whitespace, and then the keys that are; every
   * other input reaches an adapter.
   */
  lemma WhitespaceInputsRejected(host: Setting, apiKey: Setting, st: State, now: int, net: Network)
    ensures var c := GetStatus(host, apiKey, st, now, net);
            && (host.None? || AllWhitespace(host.value) ==> c == Call(Err(HostEmpty), st, []))
            && ((host.Some? && !AllWhitespace(host.value) && (apiKey.None? || AllWhitespace(apiKey.value)))
                ==> c == Call(Err(KeyEmpty), st, []))
            && (c.trace == [] <==> host.None? || AllWhitespace(host.value)
                                   || apiKey.None? || AllWhitespace(apiKey.value))
  {
    if host.Some? {
      TrimIsEmptyIffBlank(host.value);
    }
    if apiKey.Some? {
      TrimIsEmptyIffBlank(apiKey.value);
    }
  }

  /**
   * A freshly loaded client tries v5 first, and a v6 fallback it reaches
   * has to authenticate, since no session is held yet.
   */
  lemma FreshClientTriesLegacyThenAuthenticates(host: Setting, apiKey: Setting, seconds: int, now: int, net: Network)
    ensures var c := GetStatus(host, apiKey, Initial, now, net);
            !Blank(host) && !Blank(apiKey) ==>
              && c.trace[0] == V5Status(host, apiKey)
              && (|c.trace| > 1 ==> c.trace[1] == V6Auth(host, apiKey))
    ensures var c := Disable(host, apiKey, seconds, Initial, now, net);
            c.trace[0] == V5Disable(host, apiKey, seconds) && (|c.trace| > 1 ==> c.trace[1] == V6Auth(host, apiKey))
    ensures var c := Enable(host, apiKey, Initial, now, net);
            c.trace[0] == V5Enable(host, apiKey) && (|c.trace| > 1 ==> c.trace[1] == V6Auth(host, apiKey))
  {
    FreshStatusAuthenticates(host, apiKey, now, net);
    FreshDisableAuthenticates(host, apiKey, seconds, now, net);
    FreshEnableAuthenticates(host, apiKey, now, net);
  }

  lemma FreshStatusAuthenticates(host: Setting, apiKey: Setting, now: int, net: Network)
    ensures var c := GetStatus(host, apiKey, Initial, now, net);
            !Blank(host) && !Blank(apiKey) ==>
              && c.trace[0] == V5Status(host, apiKey)
              && (|c.trace| > 1 ==> c.trace[1] == V6Auth(host, apiKey))
  {
    if !Blank(host) && !Blank(apiKey) {
      assert !RestApi.Usable(Initial.session, now);
      var v5 := LegacyApi.StatusOutcome(host.value, net(V5Status(host, apiKey)));
      if v5.Ok? {
        assert GetStatus(host, apiKey, Initial, now, net).trace == [V5Status(host, apiKey)];
      } else {
        LegacyFallbackAuthenticates(host, apiKey, Initial, now, net);
      }
    }
  }

  /** A v5-first getStatus whose v5 request failed authenticates right after it when no session is usable. */
  lemma LegacyFallbackAuthenticates(host: Setting, apiKey: Setting, st: State, now: int, net: Network)
    requires !Blank(host) && !Blank(apiKey) && LegacyFirst(st.preferred)
    requires !RestApi.Usable(st.session, now)
    requires LegacyApi.StatusOutcome(host.value, net(V5Status(host, apiKey))).Err?
    ensures var c := GetStatus(host, apiKey, st, now, net);
            |c.trace| > 1 && c.trace[0] == V5Status(host, apiKey) && c.trace[1] == V6Auth(host, apiKey)
  {
    var c := GetStatus(host, apiKey, st, now, net);
    var v6 := RestApi.Status(host, apiKey, st.session, now, net);
    RestApi.UnusableSessionAuthenticatesFirst(host, apiKey, RestApi.EnablePayload, st.session, now, net);
    assert c.trace == [V5Status(host, apiKey)] + v6.trace;
    assert c.trace[1] == v6.trace[0];
  }

  lemma FreshDisableAuthenticates(host: Setting, apiKey: Setting, seconds: int, now: int, net: Network)
    ensures var c := Disable(host, apiKey, seconds, Initial, now, net);
            c.trace[0] == V5Disable(host, apiKey, seconds) && (|c.trace| > 1 ==> c.trace[1] == V6Auth(host, apiKey))
  {
    var c := Disable(host, apiKey, seconds, Initial, now, net);
    var v5 := LegacyApi.AckOutcome(net(V5Disable(host, apiKey, seconds)));
    if v5.Ok? {
      assert c.trace == [V5Disable(host, apiKey, seconds)];
    } else {
      var payload := RestApi.DisablePayload(seconds);
      var v6 := RestApi.SetBlocking(host, apiKey, payload, RestApi.InitialSession, now, net);
      RestApi.UnusableSessionAuthenticatesFirst(host, apiKey, payload, RestApi.InitialSession, now, net);
      assert c.trace == [V5Disable(host, apiKey, seconds)] + v6.trace;
    }
  }

  lemma FreshEnableAuthenticates(host: Setting, apiKey: Setting, now: int, net: Network)
    ensures var c := Enable(host, apiKey, Initial, now, net);
            c.trace[0] == V5Enable(host, apiKey) && (|c.trace| > 1 ==> c.trace[1] == V6Auth(host, apiKey))
  {
    var c := Enable(host, apiKey, Initial, now, net);
    var v5 := LegacyApi.AckOutcome(net(V5Enable(host, apiKey)));
    if v5.Ok? {
      assert c.trace == [V5Enable(host, apiKey)];
    } else {
      var v6 := RestApi.SetBlocking(host, apiKey, RestApi.EnablePayload, RestApi.InitialSession, now, net);
      RestApi.UnusableSessionAuthenticatesFirst(host, apiKey, RestApi.EnablePayload, RestApi.InitialSession, now, net);
      assert c.trace == [V5Enable(host, apiKey)] + v6.trace;
    }
  }
}

=== FILE: protocol.dfy ===
/**
 * The boundary between the client and its transport. Every HTTP exchange the
 * client starts is a `Request`; the transport answers each with one
 * `Exchange`, supplied from outside as a `Network` function. Operations return
 * the requests they issued, in order, so that what was (not) sent is visible.
 */
module Protocol {
  import opened Wrappers
  import opened JsValue

  /** A configuration string as the widget hands it over; None is null or undefined. */
  type Setting = Option<string>

  /** The outcome of JSON.parse on a response text. */
  datatype Body = Unparseable(reason: string) | Parsed(json: Json)

  /**
   * How one request ends: its timeout fires, its error handler fires, or it
   * completes with a status (0 when nothing was received), the raw response
   * text and the parsed body.
   */
  datatype Exchange =
    | TimedOut
    | NetworkError
    | Done(status: int, text: string, body: Body)

  /** The JSON object posted to /api/dns/blocking; `timer` is absent when None. */
  datatype BlockingPayload = BlockingPayload(blocking: bool, timer: Option<int>)

  /** One HTTP request, with the data that distinguishes it on the wire. */
  datatype Request =
    | V5Status(host: Setting, apiKey: Setting)                          // GET /admin/api.php?status
    | V5Disable(host: Setting, apiKey: Setting, seconds: int)           // GET /admin/api.php?disable=<seconds>
    | V5Enable(host: Setting, apiKey: Setting)                          // GET /admin/api.php?enable
    | V6Auth(host: Setting, password: Setting)                          // POST /api/auth
    | V6GetBlocking(host: Setting, sid: Json)                           // GET /api/dns/blocking
    | V6SetBlocking(host: Setting, sid: Json, payload: BlockingPayload) // POST /api/dns/blocking

  /** The requests of the legacy (v5) generation. */
  predicate IsLegacy(r: Request) {
    r.V5Status? || r.V5Disable? || r.V5Enable?
  }

  /** The transport: the exchange each request would end in. */
  type Network = Request -> Exchange

  /** What a successful call hands to its callback. */
  datatype Payload =
    | Raw(json: Json)                                  // a parsed response body passed on as is
    | Converted(status: string, blocking: bool, timer: Json) // the v6 status in v5-compatible shape
    | Brief(status: string, timer: Json)               // the widget copy's status object

  /** `callback(true, payload)` or `callback(false, { error: message })`. */
  datatype Outcome = Ok(payload: Payload) | Err(error: string)

  /** `response.session && response.session.sid` is truthy for a parsed auth body. */
  predicate HasSid(j: Json) {
    var session := Member(j, "session");
    Present(session) && Present(Member(session.value, "sid"))
  }

  /** The sid a parsed auth body carries. */
  function SidOf(j: Json): Json
    requires HasSid(j)
  {
    Member(Member(j, "session").value, "sid").value
  }

  /** The text a JavaScript engine gives the TypeError thrown by reading `key` of null. */
  function NullReadError(key: string): string {
    "TypeError: Cannot read property '" + key + "' of null"
  }
}

=== FILE: rest_api.dfy ===
/**
 * The session-based (v6) adapter of the main client: authentication against
 * /api/auth with a cached session, and the status, enable and disable calls
 * on /api/dns/blocking that run once a session is held.
 */
module RestApi {
  import opened Wrappers
  import opened JsValue
  import opened Decimal
  import opened Protocol

  /** The globals `sessionId` and `sessionExpiry`. */
  datatype Session = Session(id: Json, expiry: Instant)

  /** `sessionId = null`, `sessionExpiry = 0`. */
  const InitialSession := Session(JNull, Ms(0))

  /** Lifetime in seconds assumed when the auth response states no (truthy) validity. */
  const DefaultValidity := 300

  /** `sessionId && sessionExpiry > now`: the cached session may be used without a request. */
  predicate Usable(s: Session, now: int) {
    Truthy(s.id) && After(s.expiry, now)
  }

  /** The result of one adapter step, with the session it leaves and the requests it issued. */
  datatype Step = Step(out: Outcome, session: Session, trace: seq<Request>)

  const NoSessionId := "No session ID in v6 auth response"
  const AuthUnparsed := "Failed to parse v6 auth response"
  const WrongPassword := "v6 authentication failed - wrong password"

  /** `validity || 300` of a parsed auth body, as the number of seconds `* 1000` sees. */
  function Lifetime(j: Json): Instant
    requires HasSid(j)
  {
    ToNumber(OrDefault(Member(Member(j, "session").value, "validity"), JNum(DefaultValidity)))
  }

  /**
   * The handler of the POST to /api/auth, given the session before it and the
   * instant read before the request was sent. Only a 200 whose body parses
   * changes the session: it is replaced when the body carries a sid and its
   * id is cleared when it does not; every other answer leaves it alone.
   */
  function AuthReply(x: Exchange, s: Session, now: int): (r: (Outcome, Session))
    ensures r.0.Ok? <==> x.Done? && x.status == 200 && x.body.Parsed? && HasSid(x.body.json)
    ensures r.0.Ok? ==> r.0.payload == Raw(x.body.json)
    ensures r.0.Ok? ==>
              && r.1.id == SidOf(x.body.json)
              && r.1.expiry == (match Lifetime(x.body.json)
                                case Ms(v) => Ms(now + 1000 * v)
                                case NaN => NaN)
    ensures r.1 != s ==> x.Done? && x.status == 200 && x.body.Parsed? && x.body.json != JNull
    ensures r.0.Err? && r.1 != s ==> r.1 == s.(id := JNull) && r.0.error == NoSessionId
    ensures x.Done? && x.status == 200 && x.body.Parsed? && x.body.json != JNull && !HasSid(x.body.json)
            ==> r == (Err(NoSessionId), s.(id := JNull))
    ensures x.Done? && x.status == 200 && (x.body.Unparseable? || x.body.json == JNull)
            ==> r == (Err(AuthUnparsed), s)
    ensures x.Done? && x.status == 0 ==> r == (Err("Cannot reach v6 auth endpoint"), s)
    ensures x.Done? && x.status == 401 ==> r == (Err(WrongPassword), s)
    ensures x.Done? && x.status != 0 && x.status != 200 && x.status != 401 ==> r == (Err("v6 auth HTTP " + IntToString(x.status)), s)
    ensures x.TimedOut? ==> r == (Err("v6 auth timeout"), s)
    ensures x.NetworkError? ==> r == (Err("v6 auth network error"), s)
  {
    match x
    case TimedOut => (Err("v6 auth timeout"), s)
    case NetworkError => (Err("v6 auth network error"), s)
    case Done(code, _, body) =>
      if code == 200 then
        match body
        case Unparseable(_) => (Err(AuthUnparsed), s)
        case Parsed(j) =>
          var session := Member(j, "session");
          if session.Throws? then (Err(AuthUnparsed), s)
          else if HasSid(j) then
            var validity := OrDefault(Member(session.value, "validity"), JNum(DefaultValidity));
            (Ok(Raw(j)), Session(SidOf(j), SecondsAfter(now, validity)))
          else (Err(NoSessionId), s.(id := JNull))
      else if code == 0 then (Err("Cannot reach v6 auth endpoint"), s)
      else if code == 401 then (Err(WrongPassword), s)
      else (Err("v6 auth HTTP " + IntToString(code)), s)
  }

  /**
   * authenticateV6: a usable cached session answers at once with `{sid}` and
   * no request; otherwise one POST to /api/auth is issued.
   */
  function Authenticate(host: Setting, password: Setting, s: Session, now: int, net: Network): (st: Step)
    ensures Usable(s, now) ==> st == Step(Ok(Raw(JObj(map["sid" := s.id]))), s, [])
    ensures !Usable(s, now) ==> st.trace == [V6Auth(host, password)]
    ensures !Usable(s, now) ==>
              var r := AuthReply(net(V6Auth(host, password)), s, now);
              st.out == r.0 && st.session == r.1
    ensures st.out.Ok? ==> Truthy(st.session.id)
    ensures st.out.Err? ==> st.session.expiry == s.expiry
  {
    if Usable(s, now) then
      Step(Ok(Raw(JObj(map["sid" := s.id]))), s, [])
    else
      var req := V6Auth(host, password);
      var (out, s') := AuthReply(net(req), s, now);
      Step(out, s', [req])
  }

  /** The body posted to disable blocking: a timer only for a positive number of seconds. */
  function DisablePayload(seconds: int): (p: BlockingPayload)
    ensures !p.blocking
    ensures p.timer.Some? <==> seconds > 0
    ensures p.timer.Some? ==> p.timer.value == seconds
  {
    BlockingPayload(false, if seconds > 0 then Some(seconds) else None)
  }

  /** The body posted to enable blocking. */
  const EnablePayload := BlockingPayload(true, None)

  /**
   * The v6 status in v5-compatible shape: blocking is on exactly when the
   * `blocking` member is the string "enabled" or the boolean true, and a
   * falsy `timer` becomes 0.
   */
  function Normalise(j: Json): (p: Payload)
    requires j != JNull
    ensures p.Converted?
    ensures p.blocking <==> (Member(j, "blocking") == Found(JStr("enabled")) || Member(j, "blocking") == Found(JBool(true)))
    ensures p.status == (if p.blocking then "enabled" else "disabled")
    ensures Present(Member(j, "timer")) ==> p.timer == Member(j, "timer").value
    ensures !Present(Member(j, "timer")) ==> p.timer == JNum(0)
  {
    var blocking := Member(j, "blocking");
    var isBlocking := MemberIs(blocking, JStr("enabled")) || MemberIs(blocking, JBool(true));
    Converted(if isBlocking then "enabled" else "disabled", isBlocking, OrDefault(Member(j, "timer"), JNum(0)))
  }

  /** The handler of the GET on /api/dns/blocking in tryV6Status. */
  function StatusReply(x: Exchange): (r: Outcome)
    ensures r.Ok? <==> x.Done? && x.status == 200 && x.body.Parsed? && x.body.json != JNull
    ensures r.Ok? ==> r.payload == Normalise(x.body.json)
  {
    match x
    case TimedOut => Err("v6 timeout")
    case NetworkError => Err("v6 network error")
    case Done(code, _, body) =>
      if code == 200 then
        match body
        case Unparseable(_) => Err("Failed to parse v6 response")
        case Parsed(j) =>
          if j == JNull then Err("Failed to parse v6 response")
          else Ok(Normalise(j))
      else if code == 0 then Err("Cannot reach v6 API endpoint")
      else Err("v6 HTTP " + IntToString(code))
  }

  /** The handler of the POST on /api/dns/blocking in tryV6Enable and tryV6Disable. */
  function SetReply(x: Exchange): (r: Outcome)
    ensures r.Ok? <==> x.Done? && x.status == 200 && x.body.Parsed?
    ensures r.Ok? ==> r.payload == Raw(x.body.json)
    ensures x.Done? && x.status != 200 ==>
              r == Err("v6 HTTP " + IntToString(x.status) + ": " + x.text)
    ensures x.Done? && x.status == 200 && x.body.Unparseable? ==> r == Err("Failed to parse v6 response")
    ensures x.TimedOut? ==> r == Err("v6 timeout")
    ensures x.NetworkError? ==> r == Err("v6 network error")
  {
    match x
    case TimedOut => Err("v6 timeout")
    case NetworkError => Err("v6 network error")
    case Done(code, text, body) =>
      if code == 200 then
        match body
        case Unparseable(_) => Err("Failed to parse v6 response")
        case Parsed(j) => Ok(Raw(j))
      else Err("v6 HTTP " + IntToString(code) + ": " + text)
  }

  /** tryV6Status: authenticate, then read the blocking state with the session's sid. */
  function Status(host: Setting, password: Setting, s: Session, now: int, net: Network): (st: Step)
    ensures var auth := Authenticate(host, password, s, now, net);
            && st.session == auth.session
            && (auth.out.Err? ==> st == auth)
            && (auth.out.Ok? ==>
                  var req := V6GetBlocking(host, auth.session.id);
                  st.trace == auth.trace + [req] && st.out == StatusReply(net(req)))
    ensures |st.trace| > 0 && !IsLegacy(st.trace[0])
    ensures st.out.Ok? ==> st.out.payload.Converted?
  {
    var auth := Authenticate(host, password, s, now, net);
    if auth.out.Err? then auth
    else
      var req := V6GetBlocking(host, auth.session.id);
      Step(StatusReply(net(req)), auth.session, auth.trace + [req])
  }

  /** tryV6Disable and tryV6Enable: authenticate, then post `payload` with the session's sid. */
  function SetBlocking(host: Setting, password: Setting, payload: BlockingPayload,
                       s: Session, now: int, net: Network): (st: Step)
    ensures var auth := Authenticate(host, password, s, now, net);
            && st.session == auth.session
            && (auth.out.Err? ==> st == auth)
            && (auth.out.Ok? ==>
                  var req := V6SetBlocking(host, auth.session.id, payload);
                  st.trace == auth.trace + [req] && st.out == SetReply(net(req)))
    ensures |st.trace| > 0 && !IsLegacy(st.trace[0])
  {
    var auth := Authenticate(host, password, s, now, net);
    if auth.out.Err? then auth
    else
      var req := V6SetBlocking(host, auth.session.id, payload);
      Step(SetReply(net(req)), auth.session, auth.trace + [req])
  }

  /** tryV6Disable. */
  function Disable(host: Setting, password: Setting, seconds: int, s: Session, now: int, net: Network): (st: Step)
    ensures forall i :: 0 <= i < |st.trace| && st.trace[i].V6SetBlocking? ==>
              st.trace[i].payload == DisablePayload(seconds)
  {
    SetBlocking(host, password, DisablePayload(seconds), s, now, net)
  }

  /** tryV6Enable. */
  function Enable(host: Setting, password: Setting, s: Session, now: int, net: Network): (st: Step)
    ensures forall i :: 0 <= i < |st.trace| && st.trace[i].V6SetBlocking? ==>
              st.trace[i].payload == BlockingPayload(true, None)
  {
    SetBlocking(host, password, EnablePayload, s, now, net)
  }

  /**
   * A session freshly granted at `now` serves every later call made before
   * its stated validity runs out, without another request to /api/auth.
   */
  lemma SessionReusedWithinValidity(host: Setting, password: Setting, s: Session, now: int, net: Network,
                                    later: int, host': Setting, password': Setting, net': Network)
    requires !Usable(s, now)
    requires var x := net(V6Auth(host, password));
             && x.Done? && x.status == 200 && x.body.Parsed? && HasSid(x.body.json)
             && Lifetime(x.body.json).Ms?
             && now <= later < now + 1000 * Lifetime(x.body.json).ms
    ensures var first := Authenticate(host, password, s, now, net);
            && first.trace == [V6Auth(host, password)]
            && first.out.Ok?
            && Authenticate(host', password', first.session, later, net').trace == []
  {
    var x := net(V6Auth(host, password));
    var first := Authenticate(host, password, s, now, net);
    assert Usable(first.session, later);
  }

  /** Once the stored expiry is not after `now`, the next call authenticates again. */
  lemma ExpiredSessionReauthenticates(host: Setting, password: Setting, s: Session, now: int, net: Network)
    requires !After(s.expiry, now)
    ensures Authenticate(host, password, s, now, net).trace == [V6Auth(host, password)]
    ensures Status(host, password, s, now, net).trace[0] == V6Auth(host, password)
  {
    UnusableSessionAuthenticatesFirst(host, password, EnablePayload, s, now, net);
  }

  /** Without a usable session, every v6 operation starts with an auth request. */
  lemma UnusableSessionAuthenticatesFirst(host: Setting, password: Setting, payload: BlockingPayload,
                                          s: Session, now: int, net: Network)
    requires !Usable(s, now)
    ensures Status(host, password, s, now, net).trace[0] == V6Auth(host, password)
    ensures SetBlocking(host, password, payload, s, now, net).trace[0] == V6Auth(host, password)
  {
    var auth := Authenticate(host, password, s, now, net);
    assert auth.trace == [V6Auth(host, password)];
  }

  /** With a usable session, the v6 operations send only their own request, carrying the cached sid. */
  lemma UsableSessionSkipsAuth(host: Setting, password: Setting, payload: BlockingPayload,
                               s: Session, now: int, net: Network)
    requires Usable(s, now)
    ensures Status(host, password, s, now, net).trace == [V6GetBlocking(host, s.id)]
    ensures SetBlocking(host, password, payload, s, now, net).trace == [V6SetBlocking(host, s.id, payload)]
  {
    var auth := Authenticate(host, password, s, now, net);
    assert auth.trace == [] && auth.out.Ok? && auth.session == s;
  }

  /** A successful v6 status call ends with its read of /api/dns/blocking. */
  lemma StatusSuccessEndsWithRead(host: Setting, password: Setting, s: Session, now: int, net: Network)
    requires Status(host, password, s, now, net).out.Ok?
    ensures var t := Status(host, password, s, now, net).trace;
            |t| > 0 && t[|t| - 1].V6GetBlocking?
  {
    var auth := Authenticate(host, password, s, now, net);
    assert auth.out.Ok?;
  }

  /**
   * The v6 operations hand an authentication failure on unchanged and send
   * nothing after it.
   */
  lemma AuthFailurePassesThrough(host: Setting, password: Setting, seconds: int, s: Session, now: int, net: Network)
    requires Authenticate(host, password, s, now, net).out.Err?
    ensures var auth := Authenticate(host, password, s, now, net);
            && Status(host, password, s, now, net) == auth
            && Disable(host, password, seconds, s, now, net) == auth
            && Enable(host, password, s, now, net) == auth
            && |auth.trace| == 1 && auth.trace[0].V6Auth?
  {
  }
}

=== FILE: scenarios.dfy ===
/**
 * End-to-end situations of the main client, worked out on the model for
 * every server that behaves as each lemma requires.
 */
module Scenarios {
  import opened Wrappers
  import opened JsValue
  import opened Protocol
  import opened Negotiator
  import RestApi
  import LegacyApi

  /** A 200 answer to /api/auth granting `sid` for `validity` seconds. */
  predicate Grants(x: Exchange, sid: Json, validity: int) {
    && x.Done? && x.status == 200 && x.body.Parsed? && HasSid(x.body.json)
    && SidOf(x.body.json) == sid && RestApi.Lifetime(x.body.json) == Ms(validity)
  }

  /** A 200 answer to the blocking-status GET whose body says blocking is on and has no timer. */
  predicate ReportsBlocking(x: Exchange) {
    && x.Done? && x.status == 200 && x.body.Parsed? && x.body.json != JNull
    && Member(x.body.json, "blocking") == Found(JBool(true))
    && !Present(Member(x.body.json, "timer"))
  }

  /** The auth body `{"session":{"sid":"abc","validity":300}}` grants sid "abc" for 300 seconds. */
  lemma ExampleAuthBodyGrants(text: string)
    ensures Grants(Done(200, text, Parsed(JObj(map["session" := JObj(map["sid" := JStr("abc"), "validity" := JNum(300)])]))),
                   JStr("abc"), 300)
  {
    var session := JObj(map["sid" := JStr("abc"), "validity" := JNum(300)]);
    var body := JObj(map["session" := session]);
    assert Member(body, "session") == Found(session);
    assert Member(session, "sid") == Found(JStr("abc"));
    assert Member(session, "validity") == Found(JNum(300));
  }

  /**
   * A server upgraded to v6: the legacy API answers 401, /api/auth grants a
   * session and the blocking POST answers 200. enable then succeeds through
   * the v6 fallback and stores the session, yet leaves the preference as it
   * was: enable never writes it.
   */
  lemma EnableOnUpgradedServer(host: Setting, key: Setting, st: State, now: int, net: Network,
                               sid: Json, validity: int)
    requires st.preferred == Unlearned && !RestApi.Usable(st.session, now)
    requires net(V5Enable(host, key)).Done? && net(V5Enable(host, key)).status == 401
    requires Grants(net(V6Auth(host, key)), sid, validity)
    requires var x := net(V6SetBlocking(host, sid, BlockingPayload(true, None)));
             x.Done? && x.status == 200 && x.body.Parsed?
    ensures var c := Enable(host, key, st, now, net);
            && c.out.Ok?
            && c.state.preferred == Unlearned
            && c.state.session == RestApi.Session(sid, Ms(now + 1000 * validity))
            && c.trace == [V5Enable(host, key), V6Auth(host, key),
                           V6SetBlocking(host, sid, BlockingPayload(true, None))]
  {
    var auth := RestApi.Authenticate(host, key, st.session, now, net);
    assert auth.session == RestApi.Session(sid, Ms(now + 1000 * validity));
  }

  /**
   * getStatus against an upgraded server learns "v6" after the legacy API
   * fails; a second getStatus while the session is valid goes straight to
   * v6 on the cached session, with no authentication request.
   */
  lemma StatusTwiceOnUpgradedServer(host: Setting, key: Setting, st: State, now: int, later: int,
                                    net: Network, sid: Json, validity: int)
    requires !Blank(host) && !Blank(key)
    requires st.preferred == Unlearned && !RestApi.Usable(st.session, now)
    requires LegacyApi.StatusOutcome(host.value, net(V5Status(host, key))).Err?
    requires Grants(net(V6Auth(host, key)), sid, validity)
    requires ReportsBlocking(net(V6GetBlocking(host, sid)))
    requires now <= later < now + 1000 * validity
    ensures var first := GetStatus(host, key, st, now, net);
            var second := GetStatus(host, key, first.state, later, net);
            && first.out == Ok(Converted("enabled", true, JNum(0)))
            && first.state.preferred == PreferV6
            && second.out == first.out
            && second.trace == [V6GetBlocking(host, sid)]
  {
    FirstStatusLearnsV6(host, key, st, now, net, sid, validity);
    var session := RestApi.Session(sid, Ms(now + 1000 * validity));
    assert RestApi.Usable(session, later);
  }

  lemma FirstStatusLearnsV6(host: Setting, key: Setting, st: State, now: int, net: Network,
                            sid: Json, validity: int)
    requires !Blank(host) && !Blank(key)
    requires st.preferred == Unlearned && !RestApi.Usable(st.session, now)
    requires LegacyApi.StatusOutcome(host.value, net(V5Status(host, key))).Err?
    requires Grants(net(V6Auth(host, key)), sid, validity)
    requires ReportsBlocking(net(V6GetBlocking(host, sid)))
    ensures GetStatus(host, key, st, now, net).out == Ok(Converted("enabled", true, JNum(0)))
    ensures GetStatus(host, key, st, now, net).state
            == State(PreferV6, RestApi.Session(sid, Ms(now + 1000 * validity)))
  {
    V6StatusOnUpgradedServer(host, key, st.session, now, net, sid, validity);
  }

  /** The v6 half of the same situation: one fresh session and the converted status. */
  lemma V6StatusOnUpgradedServer(host: Setting, key: Setting, s: RestApi.Session, now: int, net: Network,
                                 sid: Json, validity: int)
    requires !RestApi.Usable(s, now)
    requires Grants(net(V6Auth(host, key)), sid, validity)
    requires ReportsBlocking(net(V6GetBlocking(host, sid)))
    ensures var v6 := RestApi.Status(host, key, s, now, net);
            && v6.out == Ok(Converted("enabled", true, JNum(0)))
            && v6.session == RestApi.Session(sid, Ms(now + 1000 * validity))
  {
    var auth := RestApi.Authenticate(host, key, s, now, net);
    assert auth.session == RestApi.Session(sid, Ms(now + 1000 * validity));
    assert RestApi.StatusReply(net(V6GetBlocking(host, sid))) == Ok(Converted("enabled", true, JNum(0)));
  }

  /**
   * With the host unreachable on both generations, getStatus fails with the
   * guidance text followed by the v5 unreachability message, and the
   * preference is unchanged.
   */
  lemma StatusOnUnreachableHost(host: Setting, key: Setting, st: State, now: int, net: Network)
    requires !Blank(host) && !Blank(key)
    requires st.preferred != PreferV6 && !RestApi.Usable(st.session, now)
    requires net(V5Status(host, key)).Done? && net(V5Status(host, key)).status == 0
    requires net(V6Auth(host, key)).Done? && net(V6Auth(host, key)).status == 0
    ensures var c := GetStatus(host, key, st, now, net);
            && c.out == Err(Guidance + ("Network error - cannot reach Pi-hole at " + host.value))
            && c.state == st
  {
  }

  /** Normalisation of a string and of a boolean `blocking`, with and without a timer. */
  lemma NormalisationExamples()
    ensures RestApi.Normalise(JObj(map["blocking" := JStr("enabled"), "timer" := JNum(45)]))
            == Converted("enabled", true, JNum(45))
    ensures RestApi.Normalise(JObj(map["blocking" := JBool(false)]))
            == Converted("disabled", false, JNum(0))
  {
    var first := JObj(map["blocking" := JStr("enabled"), "timer" := JNum(45)]);
    assert Member(first, "blocking") == Found(JStr("enabled"));
    assert Member(first, "timer") == Found(JNum(45));
    var second := JObj(map["blocking" := JBool(false)]);
    assert Member(second, "blocking") == Found(JBool(false));
    assert Member(second, "timer") == Missing;
  }
}

=== FILE: widget.dfy ===
/**
 * The simplified v6-only client of the stand-alone widget: one session cache
 * with a fixed lifetime, a status query and a blocking switch, and its own
 * formatTime. There is no negotiation and no learned preference.
 */
module Widget {
  import opened Wrappers
  import opened JsValue
  import opened Decimal
  import opened Protocol
  import opened DurationText

  /** The globals `sessionId` and `sessionExpiry`. */
  datatype Session = Session(id: Json, expiry: int)

  /** The globals as the script loads them: no session. */
  const InitialSession := Session(JNull, 0)

  /** SESSION_LIFETIME: every session is taken to last five minutes, in milliseconds. */
  const SessionLifetime := 300000

  /** `sessionId && sessionExpiry > now`. */
  predicate Usable(s: Session, now: int) {
    Truthy(s.id) && s.expiry > now
  }

  /** What authenticate hands its callback: the sid, or a message. */
  datatype Grant = Granted(sid: Json) | Refused(message: string)

  datatype AuthStep = AuthStep(grant: Grant, session: Session, trace: seq<Request>)

  const NoSession := "No session in response"
  const InvalidResponse := "Invalid response"
  const InvalidPassword := "Invalid App Password"
  const AuthFailed := "Authentication failed"

  /**
   * The handler of the POST to /api/auth. Only a 200 carrying a sid writes
   * the session, always with the fixed lifetime whatever validity the body
   * states; no failure touches it.
   */
  function AuthReply(x: Exchange, s: Session, now: int): (r: (Grant, Session))
    ensures r.0.Granted? <==> x.Done? && x.status == 200 && x.body.Parsed? && HasSid(x.body.json)
    ensures r.0.Granted? ==> r.0.sid == SidOf(x.body.json) && r.1 == Session(r.0.sid, now + SessionLifetime)
    ensures r.0.Refused? ==> r.1 == s
    ensures x.Done? && x.status == 200 && x.body.Parsed? && x.body.json != JNull && !HasSid(x.body.json)
            ==> r.0 == Refused(NoSession)
    ensures x.Done? && x.status == 200 && (x.body.Unparseable? || x.body.json == JNull)
            ==> r.0 == Refused(InvalidResponse)
    ensures x.Done? && x.status == 401 ==> r.0 == Refused(InvalidPassword)
    ensures x.Done? && x.status != 200 && x.status != 401 ==> r.0 == Refused(AuthFailed)
    ensures x.TimedOut? ==> r.0 == Refused("Connection timeout")
    ensures x.NetworkError? ==> r.0 == Refused("Network error")
  {
    match x
    case TimedOut => (Refused("Connection timeout"), s)
    case NetworkError => (Refused("Network error"), s)
    case Done(code, _, body) =>
      if code == 200 then
        match body
        case Unparseable(_) => (Refused(InvalidResponse), s)
        case Parsed(j) =>
          if j == JNull then (Refused(InvalidResponse), s)
          else if HasSid(j) then (Granted(SidOf(j)), Session(SidOf(j), now + SessionLifetime))
          else (Refused(NoSession), s)
      else (Refused(if code == 401 then InvalidPassword else AuthFailed), s)
  }

  /**
   * authenticate: a usable cached session answers with its sid and no
   * request; otherwise one POST to /api/auth is issued. A granted sid is the
   * stored one and the session is usable at the instant read.
   */
  function Authenticate(host: Setting, password: Setting, s: Session, now: int, net: Network): (a: AuthStep)
    ensures Usable(s, now) ==> a == AuthStep(Granted(s.id), s, [])
    ensures !Usable(s, now) ==> a.trace == [V6Auth(host, password)]
    ensures !Usable(s, now) ==>
              var r := AuthReply(net(V6Auth(host, password)), s, now);
              a.grant == r.0 && a.session == r.1
    ensures a.grant.Granted? ==> a.session.id == a.grant.sid && Usable(a.session, now)
    ensures a.grant.Refused? ==> a.session == s
  {
    if Usable(s, now) then AuthStep(Granted(s.id), s, [])
    else
      var req := V6Auth(host, password);
      var (grant, s') := AuthReply(net(req), s, now);
      AuthStep(grant, s', [req])
  }

  /** `!v`: null, undefined or the empty string. */
  predicate Missing(v: Setting) {
    v.None? || v.value == ""
  }

  /** The status object: "enabled" exactly when `blocking` is "enabled" or true; a falsy timer is 0. */
  function Summarise(j: Json): (p: Payload)
    requires j != JNull
    ensures p.Brief?
    ensures p.status == "enabled" <==> (Member(j, "blocking") == Found(JStr("enabled")) || Member(j, "blocking") == Found(JBool(true)))
    ensures p.status != "enabled" ==> p.status == "disabled"
    ensures Present(Member(j, "timer")) ==> p.timer == Member(j, "timer").value
    ensures !Present(Member(j, "timer")) ==> p.timer == JNum(0)
  {
    var blocking := Member(j, "blocking");
    var on := MemberIs(blocking, JStr("enabled")) || MemberIs(blocking, JBool(true));
    Brief(if on then "enabled" else "disabled", OrDefault(Member(j, "timer"), JNum(0)))
  }

  /** The handler of the GET on /api/dns/blocking. */
  function StatusReply(x: Exchange): (r: Outcome)
    ensures r.Ok? <==> x.Done? && x.status == 200 && x.body.Parsed? && x.body.json != JNull
    ensures r.Ok? ==> r.payload == Summarise(x.body.json)
    ensures x.Done? && x.status != 200 ==> r == Err("Request failed")
    ensures x.Done? && x.status == 200 && (x.body.Unparseable? || x.body.json == JNull) ==> r == Err(InvalidResponse)
    ensures x.TimedOut? ==> r == Err("Timeout")
    ensures x.NetworkError? ==> r == Err("Network error")
  {
    match x
    case TimedOut => Err("Timeout")
    case NetworkError => Err("Network error")
    case Done(code, _, body) =>
      if code == 200 then
        match body
        case Unparseable(_) => Err(InvalidResponse)
        case Parsed(j) => if j == JNull then Err(InvalidResponse) else Ok(Summarise(j))
      else Err("Request failed")
  }

  datatype Call = Call(out: Outcome, session: Session, trace: seq<Request>)

  /**
   * getStatus: a missing host or password fails before any request; an
   * authentication failure is reported as the error of the call, with no
   * status request.
   */
  function GetStatus(host: Setting, password: Setting, s: Session, now: int, net: Network): (c: Call)
    ensures Missing(host) || Missing(password) ==> c == Call(Err("Missing configuration"), s, [])
    ensures !Missing(host) && !Missing(password) ==>
              var auth := Authenticate(host, password, s, now, net);
              && c.session == auth.session
              && (auth.grant.Refused? ==> c.out == Err(auth.grant.message) && c.trace == auth.trace)
              && (auth.grant.Granted? ==>
                    var req := V6GetBlocking(host, auth.grant.sid);
                    c.trace == auth.trace + [req] && c.out == StatusReply(net(req)))
  {
    if Missing(host) || Missing(password) then Call(Err("Missing configuration"), s, [])
    else
      var auth := Authenticate(host, password, s, now, net);
      match auth.grant
      case Refused(message) => Call(Err(message), auth.session, auth.trace)
      case Granted(sid) =>
        var req := V6GetBlocking(host, sid);
        Call(StatusReply(net(req)), auth.session, auth.trace + [req])
  }

  /** The body posted by setBlocking: a timer only when disabling for a positive time. */
  function Payload(enabled: bool, seconds: int): (p: BlockingPayload)
    ensures p.blocking == enabled
    ensures p.timer.Some? <==> !enabled && seconds > 0
    ensures p.timer.Some? ==> p.timer.value == seconds
  {
    BlockingPayload(enabled, if !enabled && seconds > 0 then Some(seconds) else None)
  }

  /** The result of setBlocking: only a success flag reaches the callback. */
  datatype Toggle = Toggle(ok: bool, session: Session, trace: seq<Request>)

  /**
   * setBlocking: reports success exactly when authentication granted a sid
   * and the POST then completed with status 200; after a refused
   * authentication no blocking request is sent.
   */
  function SetBlocking(host: Setting, password: Setting, enabled: bool, seconds: int,
                       s: Session, now: int, net: Network): (t: Toggle)
    ensures var auth := Authenticate(host, password, s, now, net);
            && t.session == auth.session
            && (auth.grant.Refused? ==> !t.ok && t.trace == auth.trace)
            && (auth.grant.Granted? ==>
                  var req := V6SetBlocking(host, auth.grant.sid, Payload(enabled, seconds));
                  && t.trace == auth.trace + [req]
                  && (t.ok <==> net(req).Done? && net(req).status == 200))
  {
    var auth := Authenticate(host, password, s, now, net);
    match auth.grant
    case Refused(_) => Toggle(false, auth.session, auth.trace)
    case Granted(sid) =>
      var req := V6SetBlocking(host, sid, Payload(enabled, seconds));
      var x := net(req);
      Toggle(x.Done? && x.status == 200, auth.session, auth.trace + [req])
  }

  /** enable: setBlocking with blocking on and no timer. */
  function Enable(host: Setting, password: Setting, s: Session, now: int, net: Network): (t: Toggle)
    ensures forall i :: 0 <= i < |t.trace| && t.trace[i].V6SetBlocking? ==>
              t.trace[i].payload == BlockingPayload(true, None)
  {
    SetBlocking(host, password, true, 0, s, now, net)
  }

  /** disable: setBlocking with blocking off, timed when `seconds` is positive. */
  function Disable(host: Setting, password: Setting, seconds: int, s: Session, now: int, net: Network): (t: Toggle)
    ensures forall i :: 0 <= i < |t.trace| && t.trace[i].V6SetBlocking? ==>
              t.trace[i].payload == Payload(false, seconds)
  {
    SetBlocking(host, password, false, seconds, s, now, net)
  }

  /** formatTime of the widget: "0s" for no time left, "<m>m <s>s" from a minute up, "<s>s" below. */
  function FormatTime(seconds: int): (t: string)
    ensures seconds <= 0 ==> t == "0s"
    ensures |t| > 0 && IsDigit(t[0])
    ensures seconds >= 60 ==>
              exists m: nat, s: nat :: m > 0 && s < 60 && t == NatToString(m) + ("m " + NatToString(s) + "s")
    ensures 0 < seconds < 60 ==> t == NatToString(seconds) + "s"
  {
    if seconds <= 0 then "0s"
    else
      var minutes := seconds / 60;
      var secs := seconds % 60;
      if minutes > 0 then NatToString(minutes) + ("m " + NatToString(secs) + "s")
      else NatToString(seconds) + "s"
  }

  /** Reading a formatted time back gives exactly the (non-negative) seconds it was made from. */
  lemma FormatTimeReadsBack(seconds: int)
    ensures ParseDuration(FormatTime(seconds)) == Some(if seconds <= 0 then 0 else seconds)
  {
    if seconds <= 0 {
      ReadSeconds(0);
      assert NatToString(0) == "0";
    } else {
      var minutes := seconds / 60;
      var secs := seconds % 60;
      if minutes > 0 {
        ReadPair(minutes, "m ", secs, "s");
      } else {
        ReadSeconds(seconds);
      }
    }
  }

  /**
   * A session freshly granted at `now` serves every call made in the next
   * five minutes without another request to /api/auth, whatever validity
   * the server stated.
   */
  lemma SessionReusedWithinLifetime(host: Setting, password: Setting, s: Session, now: int, net: Network,
                                    later: int, host': Setting, password': Setting, net': Network)
    requires !Usable(s, now)
    requires Authenticate(host, password, s, now, net).grant.Granted?
    requires now <= later < now + SessionLifetime
    ensures var first := Authenticate(host, password, s, now, net);
            && first.trace == [V6Auth(host, password)]
            && Authenticate(host', password', first.session, later, net').trace == []
  {
  }

  /** A freshly loaded widget authenticates on its first call, whatever the clock says. */
  lemma FreshWidgetAuthenticates(host: Setting, password: Setting, now: int, net: Network)
    ensures Authenticate(host, password, InitialSession, now, net).trace == [V6Auth(host, password)]
  {
  }
}

=== FILE: wrappers.dfy ===
/** The optional-value datatype shared by the other modules. */
module Wrappers {

  /** Some value, or none at all (JavaScript's null or undefined where a setting is concerned). */
  datatype Option<+T> = None | Some(value: T)
}
